=== FILE: README.md ===
# mcp-paradex record transformation layer, in Dafny

This project models the two pure helpers of the mcp-paradex server that hold
real logic. Everything else in that server is a thin wrapper over the Paradex
exchange SDK.

- **Record-list compression** (`formatter.py`). `compress_model_list` moves
  every field whose value is the same in all records of a list into one
  shared `common` dictionary. Each entry of `items` keeps the remaining
  fields. `decompress_to_models` merges `common` back into each item and
  validates the result. `serialize_model_with_descriptions` pairs each field
  value of a record with the description its JSON schema gives.
- **The JMESPath filter wrapper** (`jmespath_utils.py`).
  `apply_jmespath_filter` compiles a query, searches the records' dumps with
  it and validates the result back into records. It also reports errors to an
  optional error logger and to the module logger.

Files:

- `wrappers.dfy`: `Option` and `Result`.
- `values.dfy`: the JSON-like `Value` that `model_dump()` produces, Python
  truthiness, and raised exceptions.
- `models.dfy`: a pydantic model class, reduced to its docstring, its JSON
  schema `properties`, its field names and the `model_dump` / `model_validate`
  pair. The last two are function-valued fields. `RoundTrips` states that
  validating a record's own dump gives the record back.
- `compression.dfy`: compression and decompression.
- `serialization.dfy`: `serialize_model_with_descriptions` and Python's
  `str.strip()`.
- `jmespath_filter.dfy`: `apply_jmespath_filter`. The JMESPath library and
  pydantic's `TypeAdapter` are parameters. Each call returns its outcome
  (the value returned or the exception raised) together with a trace of the
  steps it took, so the order of the side effects can be stated.

Points where the code's behaviour is easy to misread:

- In `decompress_to_models`, an item's value overrides `common` on a shared
  key. `{**common_data, **item_data}` puts the item last.
- Decompression uses `model_validate` in its default mode.
- Every falsy search result yields `[]`: `None`, `[]`, `{}`, `0`, `""` and
  `False`. A truthy result that is not a list goes to the type adapter like
  any other truthy result.
- A parse-class error can also come from `search` (jmespath's ArityError and
  VariadictArityError), after the records were dumped; it too becomes a
  ValueError.
- An error other than a parse error is re-raised unchanged. Only the message
  given to the loggers carries the prefix `"Error applying JMESPath filter: "`.
- If the error logger raises, its exception propagates in place of the error
  being reported, and `logger.error` is not reached.
- The literal filter `"null"` is treated like an absent filter.
- The `experimental_allow_partial` parameter is ignored. Partial validation is
  always requested (`"on"`).

## Model

| member | source | states |
|---|---|---|
| Compression.ScanCommon | src/mcp_paradex/utils/formatter.py:82-105 | the scan that starts from the first dump and narrows the candidates record by record, with early exit, ends with exactly the fields that every dump holds with the first dump's value |
| Compression.EarlyExitIsHarmless | src/mcp_paradex/utils/formatter.py:99-101 | stopping the scan once no candidate is left gives the same `common` as scanning every record |
| Compression.ScanComputesCommon | src/mcp_paradex/utils/formatter.py:86-97 | the record-by-record scan, without the early exit, computes the fields that agree across all dumps |
| Compression.Compress | src/mcp_paradex/utils/formatter.py:62-118 | on the records themselves: absent exactly for an empty list; a single record gives empty `common` and its dump as the only item; otherwise one item per record, `common` merged with item k is record k's dump, and `common` and each item share no field |
| Compression.CompressDumps | src/mcp_paradex/utils/formatter.py:62-118 | the result is absent exactly for an empty list; one record gives empty `common` and its dump as the only item; for two or more, `common` is the set of fields identical in all dumps, with values taken from the first; items are aligned with the input, each item holds the dump's fields minus `common`'s, and `common` merged with item k is dump k |
| Compression.CommonIffAllAgree | src/mcp_paradex/utils/formatter.py:86-105 | with two or more records, a field is in `common` if and only if every record's dump holds it with the first record's value |
| Compression.SingletonIsSpecialCased | src/mcp_paradex/utils/formatter.py:77-79 | on a one-element list the general algorithm would give `(dump, [{}])`; the special case gives `({}, [dump])`, and the two differ for any non-empty dump |
| Compression.FieldsPartitioned | src/mcp_paradex/utils/formatter.py:104-116 | when every dump holds exactly the declared fields, each declared field is in exactly one of `common` and item k |
| Compression.Merge | src/mcp_paradex/utils/formatter.py:144 | the merged dictionary has the keys of both; the item's value wins on a shared key, and `common`'s value is kept elsewhere |
| Compression.ValidateEach | src/mcp_paradex/utils/formatter.py:142-147 | validation succeeds exactly when every merged item validates; the records are the validated merges, in item order; a failure raises the error of the first item that fails |
| Compression.Decompress | src/mcp_paradex/utils/formatter.py:135-149 | `None` and `{}` give `[]`; missing keys default to empty; otherwise one record per item, each the validation of `common` merged with that item, or the first validation error |
| Compression.DecompressCompress | src/mcp_paradex/utils/formatter.py:62-149 | for a model class whose validation inverts its dump, decompressing the compressed form of any record list, including the empty one, gives the list back |
| Compression.ThreePositionsExample | src/mcp_paradex/utils/formatter.py:82-118 | three records sharing market and status but not size compress to `common = {market, status}` and one-field items holding the sizes |
| Serialization.LStrip | src/mcp_paradex/utils/formatter.py:23 | the result is a suffix of the input, everything dropped is whitespace, and the result does not start with whitespace |
| Serialization.RStrip | src/mcp_paradex/utils/formatter.py:23 | the result is a prefix of the input, everything dropped is whitespace, and the result does not end with whitespace |
| Serialization.Strip | src/mcp_paradex/utils/formatter.py:23 | the result is a slice of the input with only whitespace removed on either side, and it starts and ends on non-whitespace |
| Serialization.SerializeModelWithDescriptions | src/mcp_paradex/utils/formatter.py:18-37 | the output fields are exactly the schema properties that the dump holds; each carries the dump's value and the property's description, `None` when missing; the model description is the stripped docstring, or `None` when the docstring is absent or empty |
| Serialization.SerializedValuesRecoverDump | src/mcp_paradex/utils/formatter.py:29-37 | when the schema declares every dumped field, the output's values are exactly the dump |
| Serialization.UndeclaredFieldDropped | src/mcp_paradex/utils/formatter.py:30-31 | a dumped field the schema does not declare is missing from the output |
| JmespathFilter.DumpArray | src/mcp_paradex/utils/jmespath_utils.py:56 | the searched array has one object per record, the record's dump, in input order |
| JmespathFilter.Raised | src/mcp_paradex/utils/jmespath_utils.py:68-79 | a caught parse error is raised as a ValueError whose message is exactly the reported `"Invalid JMESPath filter: " + str(e)`; any other error is raised as it is; a parse error never escapes as such |
| JmespathFilter.HandleError | src/mcp_paradex/utils/jmespath_utils.py:68-79 | the steps taken before the error are kept; if the error logger raises, its exception escapes and the logger's call is the only step added; otherwise the error logger (if any) and then the module logger receive the message, and the error is raised as `Raised` states; for a parse error every logged message equals the raised ValueError's message |
| JmespathFilter.ApplyFilter | src/mcp_paradex/utils/jmespath_utils.py:20-79 | an absent, empty or `"null"` filter returns the data with no step taken; any other filter is compiled first; a successful call reports nothing; a failed call has reported to the error logger if one is given, otherwise to the module logger as its last step |
| JmespathFilter.SearchAndValidate | src/mcp_paradex/utils/jmespath_utils.py:55-79 | once the filter has compiled, the first three steps are compile, dump and search over the records' dumps; a successful call reports nothing; a failed call has reported to the error logger if one is given, otherwise to the module logger as its last step |
| JmespathFilter.StepsInOrder | src/mcp_paradex/utils/jmespath_utils.py:48-79 | on every input, each kind of step happens at most once and in the source's order: compile, dump, search, validate, error logger, module logger |
| JmespathFilter.ParseErrorStopsBeforeDump | src/mcp_paradex/utils/jmespath_utils.py:51-57 | an error at compile time fails the call before any record is dumped, searched or validated |
| JmespathFilter.ParseErrorRaisesValueError | src/mcp_paradex/utils/jmespath_utils.py:68-73 | a parse-class error, whether compile raised it or search did (an arity error), raises ValueError with the prefixed message, and the error logger (if given) and then the module logger receive exactly that message as the call's last steps; raised by compile, the trace is the compile step followed by those reports |
| JmespathFilter.OtherErrorReraised | src/mcp_paradex/utils/jmespath_utils.py:74-79 | a non-parse error from compile, search or validation is re-raised unchanged, after the loggers have received `"Error applying JMESPath filter: " + str(e)` |
| JmespathFilter.LoggerErrorPropagates | src/mcp_paradex/utils/jmespath_utils.py:68-79 | when the error logger raises while reporting an error from compile, search or validation, its exception replaces that error, its call is the last step, and the module logger is not reached |
| JmespathFilter.SearchSeesDumpsInOrder | src/mcp_paradex/utils/jmespath_utils.py:55-57 | after a successful compile, the records are dumped and the search runs on their dumps, in input order |
| JmespathFilter.FalsyResultIsEmpty | src/mcp_paradex/utils/jmespath_utils.py:60-67 | a falsy search result gives `[]`, never an error, and the type adapter is not called |
| JmespathFilter.TruthyResultValidatedPartially | src/mcp_paradex/utils/jmespath_utils.py:59-65 | a truthy search result is validated with the caller's `strict` flag and partial input allowed, and the adapter's records are returned |
| JmespathFilter.AllowPartialIsIgnored | src/mcp_paradex/utils/jmespath_utils.py:26-65 | the result is the same whatever `experimental_allow_partial` is |

## Left out

- JMESPath grammar and evaluation come from a foreign library. They are an abstract `Evaluator`. So the numeric-versus-lexical sorting of string-encoded numbers is not modelled.
- Pydantic internals are abstract functions of the model class or adapter: `model_dump`, `model_validate`, `model_json_schema`, `TypeAdapter.validate_python`, type coercion and partial validation. Dumping is total; a dump that raises is not modelled.
- `True == 1` and `NaN != NaN` are not modelled; values compare structurally. `int` and `float` are one variant (`Num`), so an int and an equal float cannot be told apart: where Python's `common` keeps the first record's type, the model keeps only the number.
- Dictionary key order is not modelled, because maps are unordered. This covers the order of `common`, items and serialized fields.
- Compression.Decompress: the input is a dictionary whose `common` and `items` are a dictionary and a list when present. Inputs of other shapes are not modelled. Most of them make the source raise: a TypeError at formatter.py line 142 or 144, or an AttributeError at line 138 for an input that is not a dictionary. A malformed `common` next to missing or empty `items` is never read, and the call returns `[]`. A tuple of dictionaries as `items` behaves like a list. Extra keys are ignored by the source and not modelled.
- The module logger `logger.error` is a trace step. Logging configuration and handlers are not modelled.
- The record schemas in `models.py`, the tool and resource handlers, the SDK client singleton, and the server bootstrap are not part of this model: they are declarations, network I/O and concurrency.

=== FILE: compression.dfy ===
/**
 * Record-list compression (`compress_model_list`) and its inverse
 * (`decompress_to_models`): fields whose value is the same in every record
 * move into one shared `common` dictionary, and each item keeps the rest.
 */
module Compression {
  import opened Wrappers
  import opened Values
  import opened Models

  /** The dictionary `compress_model_list` returns: `{"common": ..., "items": [...]}`. */
  datatype Compressed = Compressed(common: Dump, items: seq<Dump>)

  /**
   * The dictionary `decompress_to_models` reads. Either key may be missing
   * (`None`); the empty dictionary `{}` has both keys missing.
   */
  datatype CompressedDict = CompressedDict(common: Option<Dump>, items: Option<seq<Dump>>)

  /** The compressed form as the dictionary a caller hands back for decompression. */
  function AsDict(c: Option<Compressed>): (d: Option<CompressedDict>)
    ensures c.None? <==> d.None?
    ensures c.Some? ==> d.value.common == Some(c.value.common) && d.value.items == Some(c.value.items)
  {
    match c
    case None => None
    case Some(Compressed(common, items)) => Some(CompressedDict(Some(common), Some(items)))
  }

  // ---------------------------------------------------------------------------
  // The common fields: reference definition
  // ---------------------------------------------------------------------------

  /** Field `f` of the first dump is present, with the same value, in dumps 0..n-1. */
  predicate AgreesUpTo(dumps: seq<Dump>, f: string, n: nat)
    requires 0 < |dumps| && n <= |dumps|
  {
    f in dumps[0] && forall k :: 0 <= k < n ==> f in dumps[k] && dumps[k][f] == dumps[0][f]
  }

  /** The fields of the first dump on which dumps 0..n-1 all agree. */
  function CommonUpTo(dumps: seq<Dump>, n: nat): Dump
    requires 0 < |dumps| && n <= |dumps|
  {
    map f | f in dumps[0] && AgreesUpTo(dumps, f, n) :: dumps[0][f]
  }

  /** The fields identical in every dump: what `common` is meant to hold. */
  function CommonOf(dumps: seq<Dump>): Dump
    requires 0 < |dumps|
  {
    CommonUpTo(dumps, |dumps|)
  }

  // ---------------------------------------------------------------------------
  // The common fields: the source's scan with early exit
  // ---------------------------------------------------------------------------

  /** One round of the scan: keep the candidates on which dump `d` agrees. */
  function Narrow(candidate: Dump, d: Dump): Dump {
    map f | f in candidate && f in d && d[f] == candidate[f] :: candidate[f]
  }

  /**
   * The scan over dumps k.. of the rest of the list, stopping as soon as no
   * candidate is left (`if not potential_common: break`).
   */
  function NarrowFrom(candidate: Dump, dumps: seq<Dump>, k: nat): Dump
    requires k <= |dumps|
    decreases |dumps| - k
  {
    if k == |dumps| then candidate
    else
      var next := Narrow(candidate, dumps[k]);
      if next == map[] then next else NarrowFrom(next, dumps, k + 1)
  }

  /** The same scan without the early exit. */
  function NarrowAll(candidate: Dump, dumps: seq<Dump>, k: nat): Dump
    requires k <= |dumps|
    decreases |dumps| - k
  {
    if k == |dumps| then candidate else NarrowAll(Narrow(candidate, dumps[k]), dumps, k + 1)
  }

  /** The early exit does not change the scan's result. */
  lemma {:induction false} EarlyExitIsHarmless(candidate: Dump, dumps: seq<Dump>, k: nat)
    requires k <= |dumps|
    ensures NarrowFrom(candidate, dumps, k) == NarrowAll(candidate, dumps, k)
    decreases |dumps| - k
  {
    if k < |dumps| {
      var next := Narrow(candidate, dumps[k]);
      if next == map[] {
        EmptyStaysEmpty(dumps, k + 1);
      } else {
        EarlyExitIsHarmless(next, dumps, k + 1);
      }
    }
  }

  /** Narrowing an empty candidate set leaves it empty. */
  lemma {:induction false} EmptyStaysEmpty(dumps: seq<Dump>, k: nat)
    requires k <= |dumps|
    ensures NarrowAll(map[], dumps, k) == map[]
    decreases |dumps| - k
  {
    if k < |dumps| {
      assert Narrow(map[], dumps[k]) == map[];
      EmptyStaysEmpty(dumps, k + 1);
    }
  }

  /** One more round of the scan extends the agreement by one dump. */
  lemma NarrowStep(dumps: seq<Dump>, n: nat)
    requires 0 < n < |dumps|
    ensures Narrow(CommonUpTo(dumps, n), dumps[n]) == CommonUpTo(dumps, n + 1)
  {
    var lhs := Narrow(CommonUpTo(dumps, n), dumps[n]);
    var rhs := CommonUpTo(dumps, n + 1);
    forall f | f in rhs
      ensures f in lhs
    {
      assert AgreesUpTo(dumps, f, n);
    }
    assert lhs.Keys == rhs.Keys;
  }

  /** The scan started on the first dump computes the reference `CommonOf`. */
  lemma {:induction false} ScanComputesCommon(dumps: seq<Dump>, n: nat)
    requires 0 < n <= |dumps|
    ensures NarrowAll(CommonUpTo(dumps, n), dumps, n) == CommonOf(dumps)
    decreases |dumps| - n
  {
    if n < |dumps| {
      NarrowStep(dumps, n);
      ScanComputesCommon(dumps, n + 1);
    }
  }

  /** The first dump agrees with itself on all its fields. */
  lemma CommonUpToOne(dumps: seq<Dump>)
    requires 0 < |dumps|
    ensures CommonUpTo(dumps, 1) == dumps[0]
  {
    assert forall f :: f in dumps[0] ==> AgreesUpTo(dumps, f, 1);
  }

  /**
   * The `common` of a list of at least two dumps, as the source computes it:
   * start from the first dump and scan the rest with early exit.
   */
  function ScanCommon(dumps: seq<Dump>): (common: Dump)
    requires 0 < |dumps|
    ensures common == CommonOf(dumps)
  {
    CommonUpToOne(dumps);
    EarlyExitIsHarmless(dumps[0], dumps, 1);
    ScanComputesCommon(dumps, 1);
    NarrowFrom(dumps[0], dumps, 1)
  }

  // ---------------------------------------------------------------------------
  // compress_model_list
  // ---------------------------------------------------------------------------

  /** Every dump with the fields of `common` removed. */
  function Varying(dumps: seq<Dump>, common: Dump): (items: seq<Dump>)
    ensures |items| == |dumps|
    ensures forall k :: 0 <= k < |dumps| ==> items[k] == dumps[k] - common.Keys
  {
    seq(|dumps|, k requires 0 <= k < |dumps| => dumps[k] - common.Keys)
  }

  /** The general algorithm, applied to any non-empty list. */
  function CompressGeneral(dumps: seq<Dump>): Compressed
    requires 0 < |dumps|
  {
    var common := ScanCommon(dumps);
    Compressed(common, Varying(dumps, common))
  }

  /**
   * `compress_model_list` on the records' dumps: `None` for an empty list, the
   * single dump unchanged for a one-element list, otherwise the general
   * algorithm.
   */
  function CompressDumps(dumps: seq<Dump>): (r: Option<Compressed>)
    ensures r.None? <==> |dumps| == 0
    ensures |dumps| == 1 ==> r == Some(Compressed(map[], [dumps[0]]))
    ensures |dumps| >= 2 ==> r.value.common == CommonOf(dumps)
    ensures r.Some? ==> forall f :: f in r.value.common ==> f in dumps[0] && r.value.common[f] == dumps[0][f]
    ensures r.Some? ==> |r.value.items| == |dumps|
    ensures r.Some? ==> forall k :: 0 <= k < |dumps| ==>
      && r.value.items[k].Keys == dumps[k].Keys - r.value.common.Keys
      && r.value.common + r.value.items[k] == dumps[k]
  {
    if |dumps| == 0 then None
    else if |dumps| == 1 then Some(Compressed(map[], [dumps[0]]))
    else
      var c := CompressGeneral(dumps);
      assert forall k :: 0 <= k < |dumps| ==> c.common + c.items[k] == dumps[k] by {
        forall k | 0 <= k < |dumps|
          ensures c.common + c.items[k] == dumps[k]
        {
          assert forall f :: f in c.common ==> f in dumps[k] && dumps[k][f] == c.common[f];
        }
      }
      Some(c)
  }

  /**
   * `compress_model_list(records)`: the records are dumped, then compressed.
   * Absent for no records; a single record's dump stays whole; otherwise
   * `common` merged with item k is record k's dump, and no item repeats a
   * field of `common`.
   */
  function Compress<R>(m: ModelClass<R>, records: seq<R>): (r: Option<Compressed>)
    ensures r.None? <==> |records| == 0
    ensures |records| == 1 ==> r == Some(Compressed(map[], [m.dump(records[0])]))
    ensures r.Some? ==> |r.value.items| == |records|
    ensures r.Some? ==> forall k :: 0 <= k < |records| ==>
      && r.value.common + r.value.items[k] == m.dump(records[k])
      && r.value.common.Keys !! r.value.items[k].Keys
  {
    var ds := DumpAll(m, records);
    var c := CompressDumps(ds);
    assert c.Some? ==> forall k :: 0 <= k < |records| ==> ds[k] == m.dump(records[k]);
    c
  }

  /**
   * For two or more records, a field is common exactly when every record's
   * dump has it with the first record's value.
   */
  lemma CommonIffAllAgree<R>(m: ModelClass<R>, records: seq<R>, f: string)
    requires |records| >= 2
    ensures f in Compress(m, records).value.common <==>
      f in m.dump(records[0]) &&
      forall k :: 0 <= k < |records| ==> f in m.dump(records[k]) && m.dump(records[k])[f] == m.dump(records[0])[f]
  {
    var ds := DumpAll(m, records);
    if f in m.dump(records[0]) &&
       forall k :: 0 <= k < |records| ==> f in m.dump(records[k]) && m.dump(records[k])[f] == m.dump(records[0])[f] {
      assert AgreesUpTo(ds, f, |ds|);
    }
  }

  /**
   * The one-element case is special: the general algorithm would move the
   * whole record into `common` and leave an empty item.
   */
  lemma SingletonIsSpecialCased(d: Dump)
    requires d != map[]
    ensures CompressGeneral([d]) == Compressed(d, [map[]])
    ensures CompressDumps([d]) == Some(Compressed(map[], [d]))
    ensures CompressDumps([d]) != Some(CompressGeneral([d]))
  {
    var c := CompressGeneral([d]);
    assert c.items[0] == d - d.Keys;
    assert c.items[0] == map[];
  }

  /**
   * When every dump holds exactly the declared fields, each field is in
   * exactly one of `common` and an item.
   */
  lemma FieldsPartitioned<R(!new)>(m: ModelClass<R>, records: seq<R>, k: nat)
    requires DumpsAllFields(m)
    requires k < |records|
    ensures Compress(m, records).value.common.Keys !! Compress(m, records).value.items[k].Keys
    ensures Compress(m, records).value.common.Keys + Compress(m, records).value.items[k].Keys == m.fields
  {
    var ds := DumpAll(m, records);
    assert ds[k] == m.dump(records[k]);
  }

  // ---------------------------------------------------------------------------
  // decompress_to_models
  // ---------------------------------------------------------------------------

  /** `{**common, **item}`: the item's value wins on a shared key. */
  function Merge(common: Dump, item: Dump): (full: Dump)
    ensures full.Keys == common.Keys + item.Keys
    ensures forall f :: f in item ==> full[f] == item[f]
    ensures forall f :: f in common && f !in item ==> full[f] == common[f]
  {
    common + item
  }

  /** Item k is the first whose merge with `common` fails validation. */
  predicate FirstFailure<R>(m: ModelClass<R>, common: Dump, items: seq<Dump>, k: int) {
    && 0 <= k < |items|
    && m.validate(Merge(common, items[k])).Failure?
    && forall j :: 0 <= j < k ==> m.validate(Merge(common, items[j])).Success?
  }

  /** Validate `common` merged with each item in turn; the first failure is raised. */
  function ValidateEach<R>(m: ModelClass<R>, common: Dump, items: seq<Dump>): (r: Result<seq<R>, Exception>)
    ensures r.Success? <==> forall k :: 0 <= k < |items| ==> m.validate(Merge(common, items[k])).Success?
    ensures r.Success? ==> |r.value| == |items|
    ensures r.Success? ==>
      forall k :: 0 <= k < |items| ==> m.validate(Merge(common, items[k])) == Success(r.value[k])
    ensures r.Failure? ==>
      exists k :: FirstFailure(m, common, items, k) && m.validate(Merge(common, items[k])) == Failure(r.error)
  {
    if items == [] then Success([])
    else
      match m.validate(Merge(common, items[0]))
      case Failure(e) =>
        assert FirstFailure(m, common, items, 0);
        Failure(e)
      case Success(first) =>
        match ValidateEach(m, common, items[1..])
        case Failure(e) =>
          FirstFailureShifts(m, common, items, e);
          Failure(e)
        case Success(rest) => Success([first] + rest)
  }

  /** A first failure among the later items is the first failure overall when item 0 validates. */
  lemma FirstFailureShifts<R>(m: ModelClass<R>, common: Dump, items: seq<Dump>, e: Exception)
    requires |items| > 0 && m.validate(Merge(common, items[0])).Success?
    requires exists k :: FirstFailure(m, common, items[1..], k) && m.validate(Merge(common, items[1..][k])) == Failure(e)
    ensures exists k :: FirstFailure(m, common, items, k) && m.validate(Merge(common, items[k])) == Failure(e)
  {
    var k :| FirstFailure(m, common, items[1..], k) && m.validate(Merge(common, items[1..][k])) == Failure(e);
    forall j | 0 <= j < k + 1
      ensures m.validate(Merge(common, items[j])).Success?
    {
      if j > 0 {
        assert items[j] == items[1..][j - 1];
      }
    }
    assert FirstFailure(m, common, items, k + 1);
  }

  /** The items a compressed dictionary yields with the source's defaults. */
  function ItemsOf(data: Option<CompressedDict>): seq<Dump> {
    if data.None? then [] else data.value.items.GetOr([])
  }

  /** The common fields a compressed dictionary yields with the source's defaults. */
  function CommonOfDict(data: Option<CompressedDict>): Dump {
    if data.None? then map[] else data.value.common.GetOr(map[])
  }

  /**
   * `decompress_to_models(compressed_data, model_class)`: `None` and `{}` give
   * `[]`; otherwise one validated record per item, in order.
   */
  function Decompress<R>(m: ModelClass<R>, data: Option<CompressedDict>): (r: Result<seq<R>, Exception>)
    ensures data.None? || data.value == CompressedDict(None, None) ==> r == Success([])
    ensures r.Success? ==> |r.value| == |ItemsOf(data)|
    ensures r.Success? ==>
      forall k :: 0 <= k < |r.value| ==>
        m.validate(Merge(CommonOfDict(data), ItemsOf(data)[k])) == Success(r.value[k])
    ensures r.Failure? ==>
      exists k :: FirstFailure(m, CommonOfDict(data), ItemsOf(data), k) &&
        m.validate(Merge(CommonOfDict(data), ItemsOf(data)[k])) == Failure(r.error)
  {
    if data.None? || data.value == CompressedDict(None, None) then Success([])
    else ValidateEach(m, CommonOfDict(data), ItemsOf(data))
  }

  /** Decompressing what compression produced gives back the original records. */
  lemma {:induction false} DecompressCompress<R(!new)>(m: ModelClass<R>, records: seq<R>)
    requires RoundTrips(m)
    ensures Decompress(m, AsDict(Compress(m, records))) == Success(records)
  {
    var ds := DumpAll(m, records);
    var c := Compress(m, records);
    if c.Some? {
      var common, items := c.value.common, c.value.items;
      forall k | 0 <= k < |items|
        ensures m.validate(Merge(common, items[k])) == Success(records[k])
      {
        assert Merge(common, items[k]) == ds[k] == m.dump(records[k]);
      }
      var r := Decompress(m, AsDict(c));
      assert r.Success?;
      assert r.value == records;
    }
  }

  /** The dump of a position on BTC-USD, open, of the given size. */
  function Position(size: real): Dump {
    map["market" := Str("BTC-USD"), "status" := Str("OPEN"), "size" := Num(size)]
  }

  /** The fields the three example positions share. */
  const SharedFields: Dump := map["market" := Str("BTC-USD"), "status" := Str("OPEN")]

  /** Of the three example positions, only market and status agree. */
  lemma ThreePositionsCommon()
    ensures CommonOf([Position(1.0), Position(2.0), Position(3.0)]) == SharedFields
  {
    var ds := [Position(1.0), Position(2.0), Position(3.0)];
    assert !AgreesUpTo(ds, "size", 3) by {
      assert ds[1]["size"] != ds[0]["size"];
    }
    assert AgreesUpTo(ds, "market", 3);
    assert AgreesUpTo(ds, "status", 3);
    assert ds[0].Keys == {"market", "status", "size"};
    assert CommonOf(ds).Keys == SharedFields.Keys;
  }

  /** Removing the shared fields from a position leaves its size alone. */
  lemma PositionItem(size: real)
    ensures Position(size) - SharedFields.Keys == map["size" := Num(size)]
  {
    assert (Position(size) - SharedFields.Keys).Keys == {"size"};
  }

  /**
   * Three positions on the same market and status with different sizes: the
   * shared fields move to `common` and each item keeps only its size.
   */
  lemma ThreePositionsExample()
    ensures CompressDumps([Position(1.0), Position(2.0), Position(3.0)]) == Some(Compressed(
      SharedFields,
      [map["size" := Num(1.0)], map["size" := Num(2.0)], map["size" := Num(3.0)]]))
  {
    var ds := [Position(1.0), Position(2.0), Position(3.0)];
    ThreePositionsCommon();
    PositionItem(1.0);
    PositionItem(2.0);
    PositionItem(3.0);
    var c := CompressDumps(ds).value;
    assert c.common == SharedFields;
    assert c.items[0] == ds[0] - SharedFields.Keys;
    assert c.items[1] == ds[1] - SharedFields.Keys;
    assert c.items[2] == ds[2] - SharedFields.Keys;
    assert c.items == [map["size" := Num(1.0)], map["size" := Num(2.0)], map["size" := Num(3.0)]];
  }
}

=== FILE: jmespath_filter.dfy ===
/**
 * `apply_jmespath_filter`: the control flow around a JMESPath query applied
 * to a list of records. The query language itself (compile and search) and
 * pydantic's TypeAdapter are parameters; what the wrapper does with their
 * results, and the order of its side effects, is modelled as a trace.
 */
module JmespathFilter {
  import opened Wrappers
  import opened Values
  import opened Models

  /** The JMESPath library: `compile` raises or returns; `search` raises or yields a value. */
  datatype Evaluator = Evaluator(
    compile: string -> Option<Exception>,
    search: (string, Value) -> Result<Value, Exception>)

  /**
   * `type_adapter.validate_python(value, strict=..., experimental_allow_partial=...)`;
   * the two flags are `strict` and whether partial input is allowed.
   */
  datatype TypeAdapter<R> = TypeAdapter(validatePython: (Value, bool, bool) -> Result<seq<R>, Exception>)

  /** A caller-supplied `error_logger`: returns normally (`None`) or raises. */
  type ErrorLogger = string -> Option<Exception>

  /** The observable steps of one call, in the order they happen. */
  datatype Event =
    | Compile(expr: string)
    | DumpRecords(count: nat)
    | Search(expr: string, data: Value)
    | ValidatePython(data: Value, strict: bool, allowPartial: bool)
    | ErrorLoggerCall(message: string)
    | LogError(message: string)   // the module logger's `logger.error`

  /** What one call returns or raises, and the steps it took. */
  datatype FilterRun<R> = FilterRun(outcome: Result<seq<R>, Exception>, trace: seq<Event>)

  /** What a call that raises raises, and the steps it took. */
  datatype Failed = Failed(error: Exception, trace: seq<Event>)

  /** The position of each kind of step in the source's order. */
  function Rank(e: Event): nat {
    match e
    case Compile(_) => 0
    case DumpRecords(_) => 1
    case Search(_, _) => 2
    case ValidatePython(_, _, _) => 3
    case ErrorLoggerCall(_) => 4
    case LogError(_) => 5
  }

  /** Each kind of step happens at most once, and in the source's order. */
  predicate InOrder(trace: seq<Event>) {
    forall i, j :: 0 <= i < j < |trace| ==> Rank(trace[i]) < Rank(trace[j])
  }

  const ParsePrefix: string := "Invalid JMESPath filter: "
  const ApplyPrefix: string := "Error applying JMESPath filter: "

  /** Filters that leave the data alone: absent, empty, or the literal "null". */
  predicate IsIdentityFilter(filter: Option<string>) {
    filter.None? || filter.value == "" || filter.value == "null"
  }

  /** The message reported for a caught exception. */
  function ErrorMessage(e: Exception): string {
    if e.cls == ParseError then ParsePrefix + e.message else ApplyPrefix + e.message
  }

  /** The array searched: the records' dumps, in input order. */
  function DumpArray<R>(m: ModelClass<R>, data: seq<R>): (v: Value)
    ensures v.Arr? && |v.elems| == |data|
    ensures forall k :: 0 <= k < |data| ==> v.elems[k] == Obj(m.dump(data[k]))
  {
    var ds := DumpAll(m, data);
    Arr(seq(|ds|, k requires 0 <= k < |ds| => Obj(ds[k])))
  }

  /**
   * The exception a caught error is raised as: a parse error becomes a
   * ValueError whose message is exactly the reported one; any other error is
   * raised as it is.
   */
  function Raised(e: Exception): (raised: Exception)
    ensures raised.cls != ParseError
    ensures e.cls == ParseError ==> raised.cls == ValueError && raised.message == ErrorMessage(e)
    ensures e.cls != ParseError ==> raised == e
  {
    if e.cls == ParseError then Exception(ValueError, ErrorMessage(e)) else e
  }

  /** The loggers' steps for a caught error whose message is `message`. */
  function ReportSteps(errorLogger: Option<ErrorLogger>, message: string): seq<Event> {
    (if errorLogger.Some? then [ErrorLoggerCall(message)] else []) + [LogError(message)]
  }

  /** The message an error step carries; empty for the other steps. */
  function LoggedMessage(ev: Event): string {
    match ev
    case ErrorLoggerCall(message) => message
    case LogError(message) => message
    case _ => ""
  }

  /** The error logger was given, and raised when handed the report for `e`. */
  predicate LoggerRaises(errorLogger: Option<ErrorLogger>, e: Exception) {
    errorLogger.Some? && errorLogger.value(ErrorMessage(e)).Some?
  }

  /**
   * The two `except` clauses. The error logger, if any, receives the message
   * first; should it raise, its exception propagates and the module logger
   * is not reached. Otherwise the module logger receives the message and the
   * error is raised.
   */
  function HandleError(e: Exception, errorLogger: Option<ErrorLogger>, before: seq<Event>): (r: Failed)
    // the steps taken before the error are kept
    ensures |r.trace| > |before| && r.trace[..|before|] == before
    // a raising error logger: its exception escapes, and only it was reached
    ensures LoggerRaises(errorLogger, e) ==>
      && r.trace[|before|..] == [ErrorLoggerCall(ErrorMessage(e))]
      && r.error == errorLogger.value(ErrorMessage(e)).value
    // otherwise both loggers, in order, then the raise
    ensures !LoggerRaises(errorLogger, e) ==>
      && r.trace[|before|..] == ReportSteps(errorLogger, ErrorMessage(e))
      && r.error == Raised(e)
    // a parse error: every logged message is exactly the raised one
    ensures !LoggerRaises(errorLogger, e) && e.cls == ParseError ==>
      forall k :: |before| <= k < |r.trace| ==> LoggedMessage(r.trace[k]) == r.error.message
  {
    var message := ErrorMessage(e);
    match errorLogger
    case None => Failed(Raised(e), before + [LogError(message)])
    case Some(call) =>
      var reported := before + [ErrorLoggerCall(message)];
      match call(message)
      case Some(loggerError) => Failed(loggerError, reported)
      case None => Failed(Raised(e), reported + [LogError(message)])
  }

  /** A failed call as the filter returns it. */
  function Fail<R>(f: Failed): FilterRun<R> {
    FilterRun(Failure(f.error), f.trace)
  }

  /**
   * A failed call ended by reporting: with an error logger, its call is the
   * last step or is followed only by the module logger's; without one, the
   * module logger's is the last step.
   */
  predicate Reported(trace: seq<Event>, hasLogger: bool) {
    var n := |trace|;
    && n > 0
    && (hasLogger ==>
          || trace[n - 1].ErrorLoggerCall?
          || (n >= 2 && trace[n - 2].ErrorLoggerCall? && trace[n - 1].LogError?))
    && (!hasLogger ==> trace[n - 1].LogError?)
  }

  /**
   * `apply_jmespath_filter(data, jmespath_filter, type_adapter, error_logger,
   * strict, experimental_allow_partial)`.
   */
  function ApplyFilter<R>(
    data: seq<R>, filter: Option<string>, m: ModelClass<R>, adapter: TypeAdapter<R>,
    jmes: Evaluator, errorLogger: Option<ErrorLogger>, strict: bool, allowPartial: bool): (r: FilterRun<R>)
    ensures IsIdentityFilter(filter) ==> r == FilterRun(Success(data), [])
    ensures !IsIdentityFilter(filter) ==> |r.trace| > 0 && r.trace[0] == Compile(filter.value)
    ensures r.outcome.Success? ==> forall k :: 0 <= k < |r.trace| ==> !r.trace[k].ErrorLoggerCall? && !r.trace[k].LogError?
    ensures r.outcome.Failure? ==> Reported(r.trace, errorLogger.Some?)
  {
    if IsIdentityFilter(filter) then FilterRun(Success(data), [])
    else
      var expr := filter.value;
      match jmes.compile(expr)
      case Some(e) => Fail(HandleError(e, errorLogger, [Compile(expr)]))
      case None => SearchAndValidate(data, expr, m, adapter, jmes, errorLogger, strict)
  }

  /**
   * The filter once `expr` has compiled: dump the records, search them, and
   * validate a truthy result with partial input allowed.
   */
  function SearchAndValidate<R>(
    data: seq<R>, expr: string, m: ModelClass<R>, adapter: TypeAdapter<R>,
    jmes: Evaluator, errorLogger: Option<ErrorLogger>, strict: bool): (r: FilterRun<R>)
    ensures |r.trace| >= 3 && r.trace[..3] == [Compile(expr), DumpRecords(|data|), Search(expr, DumpArray(m, data))]
    ensures r.outcome.Success? ==> forall k :: 0 <= k < |r.trace| ==> !r.trace[k].ErrorLoggerCall? && !r.trace[k].LogError?
    ensures r.outcome.Failure? ==> Reported(r.trace, errorLogger.Some?)
  {
    var dumps := DumpArray(m, data);
    var searched := [Compile(expr), DumpRecords(|data|), Search(expr, dumps)];
    match jmes.search(expr, dumps)
    case Failure(e) => Fail(HandleError(e, errorLogger, searched))
    case Success(found) =>
      if !Truthy(found) then FilterRun(Success([]), searched)
      else
        var validated := searched + [ValidatePython(found, strict, true)];
        match adapter.validatePython(found, strict, true)
        case Failure(e) => Fail(HandleError(e, errorLogger, validated))
        case Success(records) => FilterRun(Success(records), validated)
  }

  /** Reporting an error after steps that touch no logger keeps the steps in order. */
  lemma {:induction false} ReportKeepsOrder(e: Exception, errorLogger: Option<ErrorLogger>, before: seq<Event>)
    requires InOrder(before)
    requires forall k :: 0 <= k < |before| ==> Rank(before[k]) <= 3
    ensures InOrder(HandleError(e, errorLogger, before).trace)
  {
    var t := HandleError(e, errorLogger, before).trace;
    var added := t[|before|..];
    assert t == before + added;
    var message := ErrorMessage(e);
    if LoggerRaises(errorLogger, e) {
      assert added == [ErrorLoggerCall(message)];
    } else if errorLogger.Some? {
      assert added == [ErrorLoggerCall(message), LogError(message)];
    } else {
      assert added == [LogError(message)];
    }
    ConcatInOrder(before, added);
  }

  /** Steps ranked at most 3 followed by logger steps, each part in order, are in order. */
  lemma ConcatInOrder(a: seq<Event>, b: seq<Event>)
    requires InOrder(a) && InOrder(b)
    requires forall k :: 0 <= k < |a| ==> Rank(a[k]) <= 3
    requires forall k :: 0 <= k < |b| ==> Rank(b[k]) >= 4
    ensures InOrder(a + b)
  {
    var t := a + b;
    forall i, j | 0 <= i < j < |t|
      ensures Rank(t[i]) < Rank(t[j])
    {
      if j < |a| {
        assert t[i] == a[i] && t[j] == a[j];
      } else if i < |a| {
        assert t[i] == a[i] && t[j] == b[j - |a|];
      } else {
        assert t[i] == b[i - |a|] && t[j] == b[j - |a|];
      }
    }
  }

  /** Every call takes each kind of step at most once, in the source's order. */
  lemma {:induction false} StepsInOrder<R>(
    data: seq<R>, filter: Option<string>, m: ModelClass<R>, adapter: TypeAdapter<R>,
    jmes: Evaluator, errorLogger: Option<ErrorLogger>, strict: bool, allowPartial: bool)
    ensures InOrder(ApplyFilter(data, filter, m, adapter, jmes, errorLogger, strict, allowPartial).trace)
  {
    if !IsIdentityFilter(filter) {
      var expr := filter.value;
      match jmes.compile(expr)
      case Some(e) => ReportKeepsOrder(e, errorLogger, [Compile(expr)]);
      case None => SearchStepsInOrder(data, expr, m, adapter, jmes, errorLogger, strict);
    }
  }

  /** Once compiled, the filter's steps are in order. */
  lemma {:induction false} SearchStepsInOrder<R>(
    data: seq<R>, expr: string, m: ModelClass<R>, adapter: TypeAdapter<R>,
    jmes: Evaluator, errorLogger: Option<ErrorLogger>, strict: bool)
    ensures InOrder(SearchAndValidate(data, expr, m, adapter, jmes, errorLogger, strict).trace)
  {
    var dumps := DumpArray(m, data);
    var searched := [Compile(expr), DumpRecords(|data|), Search(expr, dumps)];
    match jmes.search(expr, dumps)
    case Failure(e) => ReportKeepsOrder(e, errorLogger, searched);
    case Success(found) =>
      if Truthy(found) {
        var validated := searched + [ValidatePython(found, strict, true)];
        match adapter.validatePython(found, strict, true)
        case Failure(e) => ReportKeepsOrder(e, errorLogger, validated);
        case Success(_) =>
      }
  }

  /** The filter's trace has no step that touches the records. */
  predicate NoDataTouched(trace: seq<Event>) {
    forall k :: 0 <= k < |trace| ==> !trace[k].DumpRecords? && !trace[k].Search? && !trace[k].ValidatePython?
  }

  /** `suffix` is the tail of `trace`. */
  predicate EndsWith(trace: seq<Event>, suffix: seq<Event>) {
    |suffix| <= |trace| && trace[|trace| - |suffix|..] == suffix
  }

  /**
   * `e` is what the `try` block raises: from `jmespath.compile`, from
   * `jmespath.search`, or from the type adapter on a truthy result.
   */
  predicate Caught<R>(
    data: seq<R>, expr: string, m: ModelClass<R>, adapter: TypeAdapter<R>,
    jmes: Evaluator, strict: bool, e: Exception)
  {
    || jmes.compile(expr) == Some(e)
    || (&& jmes.compile(expr).None?
        && jmes.search(expr, DumpArray(m, data)) == Failure(e))
    || (&& jmes.compile(expr).None?
        && jmes.search(expr, DumpArray(m, data)).Success?
        && Truthy(jmes.search(expr, DumpArray(m, data)).value)
        && adapter.validatePython(jmes.search(expr, DumpArray(m, data)).value, strict, true) == Failure(e))
  }

  /** A parse error at compile time ends the call before any record is dumped or searched. */
  lemma ParseErrorStopsBeforeDump<R>(
    data: seq<R>, expr: string, m: ModelClass<R>, adapter: TypeAdapter<R>,
    jmes: Evaluator, errorLogger: Option<ErrorLogger>, strict: bool, allowPartial: bool)
    requires !IsIdentityFilter(Some(expr)) && jmes.compile(expr).Some?
    ensures var r := ApplyFilter(data, Some(expr), m, adapter, jmes, errorLogger, strict, allowPartial);
      r.outcome.Failure? && NoDataTouched(r.trace)
  {
    var e := jmes.compile(expr).value;
    var f := HandleError(e, errorLogger, [Compile(expr)]);
    assert ApplyFilter(data, Some(expr), m, adapter, jmes, errorLogger, strict, allowPartial) == Fail(f);
    ReportAddsLoggerSteps(e, errorLogger, [Compile(expr)]);
  }

  /** Reporting an error adds only logger steps after the steps already taken. */
  lemma ReportAddsLoggerSteps(e: Exception, errorLogger: Option<ErrorLogger>, before: seq<Event>)
    ensures var t := HandleError(e, errorLogger, before).trace;
      forall k :: |before| <= k < |t| ==> t[k].ErrorLoggerCall? || t[k].LogError?
  {
    var t := HandleError(e, errorLogger, before).trace;
    forall k | |before| <= k < |t|
      ensures t[k].ErrorLoggerCall? || t[k].LogError?
    {
      assert t[k] == t[|before|..][k - |before|];
    }
  }

  /**
   * A parse-class error, whether compile raised it or search did (an arity
   * error), raises ValueError("Invalid JMESPath filter: " + str(e)); the
   * loggers receive exactly the raised message first. Raised by compile, it
   * leaves nothing else in the trace.
   */
  lemma ParseErrorRaisesValueError<R>(
    data: seq<R>, expr: string, m: ModelClass<R>, adapter: TypeAdapter<R>,
    jmes: Evaluator, errorLogger: Option<ErrorLogger>, strict: bool, allowPartial: bool, e: Exception)
    requires !IsIdentityFilter(Some(expr)) && e.cls == ParseError
    requires Caught(data, expr, m, adapter, jmes, strict, e)
    requires errorLogger.None? || errorLogger.value(ParsePrefix + e.message).None?
    ensures var r := ApplyFilter(data, Some(expr), m, adapter, jmes, errorLogger, strict, allowPartial);
      && r.outcome == Failure(Exception(ValueError, ParsePrefix + e.message))
      && EndsWith(r.trace, ReportSteps(errorLogger, ParsePrefix + e.message))
    ensures var r := ApplyFilter(data, Some(expr), m, adapter, jmes, errorLogger, strict, allowPartial);
      jmes.compile(expr) == Some(e) ==> r == FilterRun(Failure(Exception(ValueError, ParsePrefix + e.message)),
                [Compile(expr)] + ReportSteps(errorLogger, ParsePrefix + e.message))
  {
    var r := ApplyFilter(data, Some(expr), m, adapter, jmes, errorLogger, strict, allowPartial);
    var dumps := DumpArray(m, data);
    var searched := [Compile(expr), DumpRecords(|data|), Search(expr, dumps)];
    var before;
    if jmes.compile(expr) == Some(e) {
      before := [Compile(expr)];
    } else if jmes.search(expr, dumps) == Failure(e) {
      before := searched;
    } else {
      before := searched + [ValidatePython(jmes.search(expr, dumps).value, strict, true)];
    }
    assert r == Fail(HandleError(e, errorLogger, before));
    ParseErrorReported(e, errorLogger, before);
  }

  /** Reporting a parse error after any steps raises the prefixed ValueError once the loggers have run. */
  lemma ParseErrorReported(e: Exception, errorLogger: Option<ErrorLogger>, before: seq<Event>)
    requires e.cls == ParseError
    requires errorLogger.None? || errorLogger.value(ParsePrefix + e.message).None?
    ensures var f := HandleError(e, errorLogger, before);
      && f.error == Exception(ValueError, ParsePrefix + e.message)
      && f.trace == before + ReportSteps(errorLogger, ParsePrefix + e.message)
      && EndsWith(f.trace, ReportSteps(errorLogger, ParsePrefix + e.message))
  {
    var steps := ReportSteps(errorLogger, ParsePrefix + e.message);
    assert (before + steps)[|before + steps| - |steps|..] == steps;
  }

  /**
   * Any other error, from compile, search or validation, is re-raised
   * unchanged; the loggers receive "Error applying JMESPath filter: " + str(e)
   * first.
   */
  lemma OtherErrorReraised<R>(
    data: seq<R>, expr: string, m: ModelClass<R>, adapter: TypeAdapter<R>,
    jmes: Evaluator, errorLogger: Option<ErrorLogger>, strict: bool, allowPartial: bool, e: Exception)
    requires !IsIdentityFilter(Some(expr)) && e.cls != ParseError
    requires Caught(data, expr, m, adapter, jmes, strict, e)
    requires errorLogger.None? || errorLogger.value(ApplyPrefix + e.message).None?
    ensures var r := ApplyFilter(data, Some(expr), m, adapter, jmes, errorLogger, strict, allowPartial);
      r.outcome == Failure(e) && EndsWith(r.trace, ReportSteps(errorLogger, ApplyPrefix + e.message))
  {
  }

  /**
   * An error logger that raises, whichever step raised the error it was
   * reporting, replaces that error, and the module logger is skipped.
   */
  lemma LoggerErrorPropagates<R>(
    data: seq<R>, expr: string, m: ModelClass<R>, adapter: TypeAdapter<R>,
    jmes: Evaluator, call: ErrorLogger, strict: bool, allowPartial: bool, e: Exception)
    requires !IsIdentityFilter(Some(expr))
    requires Caught(data, expr, m, adapter, jmes, strict, e)
    requires call(ErrorMessage(e)).Some?
    ensures var r := ApplyFilter(data, Some(expr), m, adapter, jmes, Some(call), strict, allowPartial);
      && r.outcome == Failure(call(ErrorMessage(e)).value)
      && EndsWith(r.trace, [ErrorLoggerCall(ErrorMessage(e))])
      && forall k :: 0 <= k < |r.trace| ==> !r.trace[k].LogError?
  {
  }

  /** The searched array is the records' dumps, in input order. */
  lemma SearchSeesDumpsInOrder<R>(
    data: seq<R>, expr: string, m: ModelClass<R>, adapter: TypeAdapter<R>,
    jmes: Evaluator, errorLogger: Option<ErrorLogger>, strict: bool, allowPartial: bool)
    requires !IsIdentityFilter(Some(expr)) && jmes.compile(expr).None?
    ensures var t := ApplyFilter(data, Some(expr), m, adapter, jmes, errorLogger, strict, allowPartial).trace;
      && |t| >= 3 && t[1] == DumpRecords(|data|) && t[2].Search? && t[2].expr == expr
      && t[2].data.Arr? && |t[2].data.elems| == |data|
      && forall k :: 0 <= k < |data| ==> t[2].data.elems[k] == Obj(m.dump(data[k]))
  {
    var t := ApplyFilter(data, Some(expr), m, adapter, jmes, errorLogger, strict, allowPartial).trace;
    assert t == SearchAndValidate(data, expr, m, adapter, jmes, errorLogger, strict).trace;
    assert t[2] == t[..3][2];
  }

  /** A falsy search result (None, [], {}, 0, "", False) gives [] and never an error. */
  lemma FalsyResultIsEmpty<R>(
    data: seq<R>, expr: string, m: ModelClass<R>, adapter: TypeAdapter<R>,
    jmes: Evaluator, errorLogger: Option<ErrorLogger>, strict: bool, allowPartial: bool)
    requires !IsIdentityFilter(Some(expr)) && jmes.compile(expr).None?
    requires jmes.search(expr, DumpArray(m, data)).Success? && !Truthy(jmes.search(expr, DumpArray(m, data)).value)
    ensures var r := ApplyFilter(data, Some(expr), m, adapter, jmes, errorLogger, strict, allowPartial);
      r.outcome == Success([]) && forall k :: 0 <= k < |r.trace| ==> !r.trace[k].ValidatePython?
  {
  }

  /**
   * A truthy search result is validated with partial input allowed, and the
   * adapter's records are the result.
   */
  lemma TruthyResultValidatedPartially<R>(
    data: seq<R>, expr: string, m: ModelClass<R>, adapter: TypeAdapter<R>,
    jmes: Evaluator, errorLogger: Option<ErrorLogger>, strict: bool, allowPartial: bool, found: Value, records: seq<R>)
    requires !IsIdentityFilter(Some(expr)) && jmes.compile(expr).None?
    requires jmes.search(expr, DumpArray(m, data)) == Success(found) && Truthy(found)
    requires adapter.validatePython(found, strict, true) == Success(records)
    ensures ApplyFilter(data, Some(expr), m, adapter, jmes, errorLogger, strict, allowPartial) ==
      FilterRun(Success(records), [Compile(expr), DumpRecords(|data|), Search(expr, DumpArray(m, data)),
                                   ValidatePython(found, strict, true)])
  {
  }

  /** `experimental_allow_partial` is accepted but has no effect: partial validation is always on. */
  lemma AllowPartialIsIgnored<R>(
    data: seq<R>, filter: Option<string>, m: ModelClass<R>, adapter: TypeAdapter<R>,
    jmes: Evaluator, errorLogger: Option<ErrorLogger>, strict: bool)
    ensures ApplyFilter(data, filter, m, adapter, jmes, errorLogger, strict, true) ==
            ApplyFilter(data, filter, m, adapter, jmes, errorLogger, strict, false)
  {
  }
}

=== FILE: models.dfy ===
/**
 * A pydantic model class, reduced to what the core uses of it: its docstring,
 * the `properties` of its JSON schema, the field names of its dumps, and the
 * `model_dump` / `model_validate` pair.
 */
module Models {
  import opened Wrappers
  import opened Values

  /** One entry of the JSON schema's `properties`: only the description is read. */
  datatype FieldSchema = FieldSchema(description: Option<string>)

  datatype ModelClass<!R> = ModelClass(
    doc: Option<string>,                          // the class's `__doc__`
    properties: Option<map<string, FieldSchema>>, // `model_json_schema().get("properties")`
    fields: set<string>,                          // the declared field names (see `DumpsAllFields`)
    dump: R -> Dump,                              // `instance.model_dump()`
    validate: Dump -> Result<R, Exception>)       // `model_class.model_validate(data)`

  /** Validating a record's own dump gives the record back. */
  ghost predicate RoundTrips<R(!new)>(m: ModelClass<R>) {
    forall r: R {:trigger m.dump(r)} :: m.validate(m.dump(r)) == Success(r)
  }

  /** Every dump holds exactly the declared fields (no field is excluded). */
  ghost predicate DumpsAllFields<R(!new)>(m: ModelClass<R>) {
    forall r: R {:trigger m.dump(r)} :: m.dump(r).Keys == m.fields
  }

  /** `[item.model_dump() for item in records]`. */
  function DumpAll<R>(m: ModelClass<R>, records: seq<R>): (ds: seq<Dump>)
    ensures |ds| == |records|
    ensures forall k :: 0 <= k < |records| ==> ds[k] == m.dump(records[k])
  {
    seq(|records|, k requires 0 <= k < |records| => m.dump(records[k]))
  }
}

=== FILE: serialization.dfy ===
/**
 * `serialize_model_with_descriptions`: a record's values paired with the
 * descriptions its model class's JSON schema gives for them.
 */
module Serialization {
  import opened Wrappers
  import opened Values
  import opened Models

  /** The characters Python's `str.strip()` removes (those `str.isspace()` accepts). */
  predicate IsSpace(c: char) {
    || 0x09 <= c as int <= 0x0D
    || 0x1C <= c as int <= 0x20
    || c as int == 0x85 || c as int == 0xA0 || c as int == 0x1680
    || 0x2000 <= c as int <= 0x200A
    || c as int == 0x2028 || c as int == 0x2029 || c as int == 0x202F
    || c as int == 0x205F || c as int == 0x3000
  }

  /** Every character of `s` is whitespace. */
  predicate AllSpace(s: string) {
    forall k :: 0 <= k < |s| ==> IsSpace(s[k])
  }

  /** `s.lstrip()`: drop the leading whitespace. */
  function LStrip(s: string): (r: string)
    ensures |r| <= |s| && r == s[|s| - |r|..]
    ensures AllSpace(s[..|s| - |r|])
    ensures r == [] || !IsSpace(r[0])
  {
    if s == [] || !IsSpace(s[0]) then s else LStrip(s[1..])
  }

  /** `s.rstrip()`: drop the trailing whitespace. */
  function RStrip(s: string): (r: string)
    ensures |r| <= |s| && r == s[..|r|]
    ensures AllSpace(s[|r|..])
    ensures r == [] || !IsSpace(r[|r| - 1])
  {
    if s == [] || !IsSpace(s[|s| - 1]) then s else RStrip(s[..|s| - 1])
  }

  /**
   * `s.strip()`: the slice of `s` left once a whitespace prefix and a
   * whitespace suffix are removed, beginning and ending on non-whitespace.
   */
  function Strip(s: string): (r: string)
    ensures exists i :: StrippedAt(s, r, i)
    ensures r == [] || (!IsSpace(r[0]) && !IsSpace(r[|r| - 1]))
  {
    var left := LStrip(s);
    var r := RStrip(left);
    StripBounds(s, left, r);
    r
  }

  /** `r` is `s[i..i + |r|]`, and everything of `s` around it is whitespace. */
  predicate StrippedAt(s: string, r: string, i: int) {
    && 0 <= i && i + |r| <= |s|
    && r == s[i..i + |r|]
    && AllSpace(s[..i])
    && AllSpace(s[i + |r|..])
  }

  /** A whitespace prefix then a whitespace suffix removed: a whitespace-framed slice. */
  lemma StripBounds(s: string, left: string, r: string)
    requires |left| <= |s| && left == s[|s| - |left|..] && AllSpace(s[..|s| - |left|])
    requires |r| <= |left| && r == left[..|r|] && AllSpace(left[|r|..])
    ensures StrippedAt(s, r, |s| - |left|)
  {
    SlicesOfSuffix(s, |s| - |left|, |r|);
  }

  /** Slicing a suffix of `s` is slicing `s` at shifted bounds. */
  lemma SlicesOfSuffix<T>(s: seq<T>, i: nat, n: nat)
    requires i + n <= |s|
    ensures s[i..][..n] == s[i..i + n]
    ensures s[i..][n..] == s[i + n..]
  {
  }

  /** One entry of the output's `fields`: `{"value": ..., "description": ...}`. */
  datatype FieldEntry = FieldEntry(value: Value, description: Option<string>)

  /** The output: `{"model_description": ..., "fields": {...}}`. */
  datatype Serialized = Serialized(modelDescription: Option<string>, fields: map<string, FieldEntry>)

  /** The field names the schema declares; none when it has no `properties`. */
  function Declared<R>(m: ModelClass<R>): set<string> {
    if m.properties.None? then {} else m.properties.value.Keys
  }

  /**
   * `serialize_model_with_descriptions(instance)`: one entry per schema
   * property that the instance's dump holds, carrying the dump's value and
   * the property's description (missing description: `None`); the class
   * docstring, stripped, when it is non-empty.
   */
  function SerializeModelWithDescriptions<R>(m: ModelClass<R>, instance: R): (r: Serialized)
    ensures r.fields.Keys == Declared(m) * m.dump(instance).Keys
    ensures forall f :: f in r.fields ==>
      && r.fields[f].value == m.dump(instance)[f]
      && r.fields[f].description == m.properties.value[f].description
    ensures m.doc.None? || m.doc == Some("") ==> r.modelDescription.None?
    ensures m.doc.Some? && m.doc.value != "" ==> r.modelDescription == Some(Strip(m.doc.value))
  {
    var data := m.dump(instance);
    var description := if m.doc.None? || m.doc.value == "" then None else Some(Strip(m.doc.value));
    var fields :=
      if m.properties.None? then map[]
      else
        var props := m.properties.value;
        map f | f in props && f in data :: FieldEntry(data[f], props[f].description);
    Serialized(description, fields)
  }

  /** The values of the serialized fields, as a dump. */
  function ValuesOf(s: Serialized): Dump {
    map f | f in s.fields :: s.fields[f].value
  }

  /**
   * When the schema declares every field of the dump, the serialized values
   * give the dump back: nothing is lost or altered.
   */
  lemma SerializedValuesRecoverDump<R>(m: ModelClass<R>, instance: R)
    requires m.dump(instance).Keys <= Declared(m)
    ensures ValuesOf(SerializeModelWithDescriptions(m, instance)) == m.dump(instance)
  {
  }

  /** A dump field the schema does not declare is left out of the output. */
  lemma UndeclaredFieldDropped<R>(m: ModelClass<R>, instance: R, f: string)
    requires f in m.dump(instance) && f !in Declared(m)
    ensures ValuesOf(SerializeModelWithDescriptions(m, instance)) != m.dump(instance)
  {
    assert f !in ValuesOf(SerializeModelWithDescriptions(m, instance));
  }
}

=== FILE: values.dfy ===
/**
 * The schema-erased data the core works on: what pydantic's `model_dump()`
 * produces and what a JMESPath search consumes and returns.
 */
module Values {

  /**
   * A JSON-like Python value. Python's `int` and `float` are both `Num`;
   * values are compared structurally.
   */
  datatype Value =
    | Null
    | Bool(b: bool)
    | Num(n: real)
    | Str(s: string)
    | Arr(elems: seq<Value>)
    | Obj(fields: map<string, Value>)

  /** The dictionary `model_dump()` returns: field name to value. */
  type Dump = map<string, Value>

  /** Python truthiness of a value (`if filtered_data:`). */
  predicate Truthy(v: Value) {
    match v
    case Null => false
    case Bool(b) => b
    case Num(n) => n != 0.0
    case Str(s) => s != ""
    case Arr(elems) => elems != []
    case Obj(fields) => fields != map[]
  }

  /**
   * The classes of exception the core raises or catches. `ParseError` stands
   * for jmespath's ParseError together with its subclasses: LexerError and
   * IncompleteExpressionError, raised when compiling, and ArityError and
   * VariadictArityError, raised by `search` when a function gets the wrong
   * number of arguments. So a parse-class error can come from `search` too,
   * after the records are dumped. `ValidationError` is pydantic's.
   */
  datatype ExceptionClass =
    | ParseError
    | ValueError
    | ValidationError
    | OtherError(name: string)

  /** A raised exception; `message` is what `str(e)` gives. */
  datatype Exception = Exception(cls: ExceptionClass, message: string)
}

=== FILE: wrappers.dfy ===
/** `Option` and `Result`, as the model uses them. */
module Wrappers {

  /** A value that may be absent (Python's `Optional`). */
  datatype Option<+T> = None | Some(value: T) {

    function GetOr(default: T): T {
      match this
      case Some(v) => v
      case None => default
    }
  }

  /** The outcome of a Python call: either it returned `value` or it raised `error`. */
  datatype Result<+R, +E> = Success(value: R) | Failure(error: E)
}
